=== FILE: README.md ===
# Profile gamification and unit creation, modelled in Dafny

This project models the client-side rules of a learning platform's student
profile screen (`Profile.jsx`) and its "Create New Unit" modal
(`AddUnitModal.jsx`). All data comes from a remote record store. The model
takes the rows that store returns, and the answers of its write calls, as
inputs. What remains is pure logic, and the model proves properties of it:

- **XP threshold gating** (`Progression`): which XP figure the badge split uses;
  the split of the student-level catalog into earned and upcoming badges;
  inclusive avatar unlocking; selecting an avatar; the "next avatar" hint with
  the XP still missing.
- **Profile helpers** (`ProfileFormat`): the rounded average score; the
  practice-time label ("m phút", "h giờ", "hh rm"); the elapsed-time label
  ("Vừa xong", minutes, hours, days ago); the tier and exercise-type lookup
  tables with their fallbacks; the six-badge preview with its "+N" tile.
- **Unit creation** (`AddUnit`): the initial form; field updates; the
  submit-enabled rule; the colour-theme preview; the next unit number; the
  inserted row (trimmed title, trimmed-or-null description, fixed fields);
  the loading/error lifecycle of a submission.
- **JavaScript text primitives** (`JsText`): `String.prototype.trim` over the
  ECMAScript whitespace set, and the decimal rendering of numbers in template
  literals. A numeral reader is the renderer's partner. It accepts only
  numerals as JavaScript prints them, with no leading zero and no "-0". The
  round-trip lemmas show that each label determines the number it was built
  from. The uniqueness lemmas show that no other text reads back the same way,
  so each label is fixed character for character.

Store answers are modelled as `Remote<T> = Done(value) | Failed(message)`.
A failure's message is `""` when the thrown value has none. A missing
JavaScript value (`null`/`undefined`) is `Option.None`.

## Model

| member | source | states |
|---|---|---|
| Progression.StatsTotalXp | src/components/profile/Profile.jsx:111 | the statistics XP is the profile XP when that is present and non-zero, otherwise 0 |
| Progression.BadgeXp | src/components/profile/Profile.jsx:203 | a non-zero statistics XP wins; a zero falls through to the profile XP, then to 0; the result is 0 exactly when both sources are falsy |
| Progression.BadgeXpFollowsProfile | src/components/profile/Profile.jsx:203 | whether the statistics are still the initial 0 or loaded from this same profile, the badge split sees the profile's XP (`profile.xp` or 0) |
| Progression.Earned | src/components/profile/Profile.jsx:217 | the earned list is no longer than the catalog |
| Progression.Upcoming | src/components/profile/Profile.jsx:218 | the upcoming list is no longer than the catalog |
| Progression.BadgeMembership | src/components/profile/Profile.jsx:217-218 | a level is earned iff the XP reaches its threshold (inclusive), and upcoming iff it does not |
| Progression.BadgePartition | src/components/profile/Profile.jsx:217-218 | earned and upcoming together hold every catalog level with its multiplicity; their lengths add up to the catalog's; no level is in both |
| Progression.BadgeSplitKeepsOrder | src/components/profile/Profile.jsx:210-218 | each of the two lists is a subsequence of the catalog, so both keep the level-number order of the query |
| Progression.BadgeSplitIsCut | src/components/profile/Profile.jsx:210-218 | when thresholds ascend along the catalog, earned followed by upcoming is exactly the catalog |
| Progression.EarnedIsPrefix | src/components/profile/Profile.jsx:210-218 | when thresholds ascend, the earned badges are a prefix of the catalog and the upcoming ones the remaining suffix |
| Progression.EarnedMonotone | src/components/profile/Profile.jsx:217 | more XP never loses an earned badge and never earns fewer badges |
| Progression.UpcomingXpNeeded | src/components/profile/Profile.jsx:844 | the amount shown plus the statistics XP is the threshold; it is positive iff the statistics XP has not reached the threshold |
| Progression.UpcomingNeedIsPositive | src/components/profile/Profile.jsx:844 | when the split and the modal read the same statistics XP and no XP figure is negative, every upcoming badge shows a strictly positive "XP needed", even though the split used the fallback XP |
| Progression.StaleStatsNeedCanBeNegative | src/components/profile/Profile.jsx:203 | the split reads the statistics of an earlier render: with stale statistics at 100 XP and a profile at 600, a 500 XP level is upcoming, and the modal shows -100 XP needed |
| Progression.IsUnlocked | src/components/profile/Profile.jsx:668 | an avatar is unlocked iff the XP still missing to its unlock XP is zero or less |
| Progression.UnlockBoundary | src/components/profile/Profile.jsx:668 | avatar unlocking is inclusive: the unlock XP is the least XP that unlocks the avatar |
| Progression.SelectAvatar | src/components/profile/Profile.jsx:227-243 | a locked avatar leaves the view unchanged and writes nothing; an unlocked one is written to the user row; the view changes only for an unlocked avatar whose write succeeded, and then shows it with the selector closed |
| Progression.ClickAvatar | src/components/profile/Profile.jsx:682 | a click writes an avatar iff it is unlocked, and what it writes is that avatar's image URL; an unlocked click whose write succeeds shows that avatar with the selector closed; the view changes in no other case |
| Progression.ClickMatchesSelect | src/components/profile/Profile.jsx:682 | the tile's own unlock check makes clicking behave exactly like selecting, and a click never moves the selection to a locked avatar |
| Progression.FirstLockedFrom | src/components/profile/Profile.jsx:739 | the search finds the first locked avatar at or after the start, with every earlier one unlocked, or none iff all of the rest are unlocked |
| Progression.NextAvatar | src/components/profile/Profile.jsx:739-758 | the hint is absent iff every avatar is unlocked; otherwise it names the first avatar in catalog order whose threshold is above the XP, and the XP still needed is that threshold minus the XP, strictly positive |
| Progression.NextAvatarIsCheapestLocked | src/components/profile/Profile.jsx:178-182 | with the catalog ordered by unlock XP, no locked avatar has a lower threshold than the hinted one |
| Progression.FallbackAvatars | src/components/profile/Profile.jsx:190-196 | five avatars with distinct ids, ascending by unlock XP; at 0 XP exactly the first two are unlocked |
| Progression.FallbackAvatarsForNewUser | src/components/profile/Profile.jsx:190-196 | the fallback avatars ascend by unlock XP; at 0 XP the next avatar is Rookie, 500 XP away; Rookie is locked at 499 and unlocked at 500 |
| ProfileFormat.Completed | src/components/profile/Profile.jsx:110 | a row is kept iff its status is "completed", and every completed row is kept as many times as it occurs, so the count the average divides by is the number of completed rows |
| ProfileFormat.AverageScore | src/components/profile/Profile.jsx:113-115 | 0 with no completed rows; otherwise the integer r with r - 1/2 <= sum/count < r + 1/2, i.e. half-up rounding of the mean with missing scores counted as 0 |
| ProfileFormat.ScoreSumBounds | src/components/profile/Profile.jsx:114 | scores within [lo, hi] sum to a total within [lo·n, hi·n] |
| ProfileFormat.AverageScoreInRange | src/components/profile/Profile.jsx:110-115 | completed scores in [0, 100] give an average in [0, 100] |
| ProfileFormat.AverageOfEqualScores | src/components/profile/Profile.jsx:113-115 | when every completed score is k, the average is exactly k |
| ProfileFormat.PracticeTimeShape | src/components/profile/Profile.jsx:292-296 | under an hour the minutes are shown as they are; from an hour on the hours h and remainder r satisfy h·60 + r = minutes, with h >= 1, and the whole-hours form is used iff r = 0 |
| ProfileFormat.RenderPracticeTime | src/components/profile/Profile.jsx:293-296 | each of the three label forms ("m phút", "h giờ", "hh rm") has its own text for every count, which reads back as exactly that form and count |
| ProfileFormat.FormatPracticeTime | src/components/profile/Profile.jsx:292-297 | the label reads back as the shape chosen for the minutes: "m phút" under an hour, "h giờ" for a whole number of hours, "hh rm" with h >= 1 and 1 <= r < 60 otherwise |
| ProfileFormat.PracticeLabelUnique | src/components/profile/Profile.jsx:293-296 | a text reads back as a shape iff it is that shape's label, so the numerals in the label are the plain ones the template literal prints (no padding, no "-0") |
| ProfileFormat.PracticeTimeLabelExact | src/components/profile/Profile.jsx:292-297 | the practice-time label is the one and only text that reads back as the shape chosen for the minutes |
| ProfileFormat.PracticeTimeRoundTrip | src/components/profile/Profile.jsx:292-297 | reading the label back gives a shape worth exactly the minutes formatted, so different minute counts of safe magnitude get different labels |
| ProfileFormat.WholeHoursLabel | src/components/profile/Profile.jsx:296 | from an hour on, the label is "h giờ" iff the minutes are a whole number of hours |
| ProfileFormat.ElapsedBucket | src/components/profile/Profile.jsx:286-289 | the four buckets are exclusive and exhaustive (below 1, 1..59, 60..1439, 1440 and up); minutes are shown as is, hours and days are the floor of the elapsed minutes over 60 and 1440 |
| ProfileFormat.ElapsedBucketMonotone | src/components/profile/Profile.jsx:286-289 | an older activity never gets a younger label: its bucket is later, or the same bucket with a count at least as large |
| ProfileFormat.RenderElapsed | src/components/profile/Profile.jsx:286-289 | the label is "Vừa xong" iff the bucket is "just now"; every other label starts with a digit |
| ProfileFormat.TimeAgoRoundTrip | src/components/profile/Profile.jsx:286-289 | reading the label of any bucket back gives that bucket and its count |
| ProfileFormat.FormatTimeAgo | src/components/profile/Profile.jsx:281-290 | the label reads back as the bucket of the elapsed minutes and its count; it is "Vừa xong" iff less than a minute has passed |
| ProfileFormat.TimeAgoLabelUnique | src/components/profile/Profile.jsx:286-289 | a text reads back as a bucket iff it is that bucket's label, with the count printed as a plain numeral |
| ProfileFormat.TimeAgoLabelExact | src/components/profile/Profile.jsx:281-290 | the elapsed-time label is the one and only text that reads back as the bucket of the elapsed minutes |
| ProfileFormat.ParseTier | src/components/profile/Profile.jsx:299-307 | a key names a tier iff it is one of the five tier keys, and then that tier's key is the key |
| ProfileFormat.StyleForTier | src/components/profile/Profile.jsx:299-330 | the tier icon, text colour and background lookups are total: a known tier gets its own row, any other string gets Shield / text-gray-500 / bg-gray-100 |
| ProfileFormat.TierStylesDistinct | src/components/profile/Profile.jsx:299-330 | distinct known tiers differ in icon, text colour and background; an unknown tier takes bronze's icon and silver's colours, a combination no known tier has |
| ProfileFormat.ParseKind | src/components/profile/Profile.jsx:263-279 | a key names an exercise type iff it is one of the three type keys |
| ProfileFormat.ExerciseTypeIcon | src/components/profile/Profile.jsx:263-270 | known types get their icon; any other type gets the book icon |
| ProfileFormat.ExerciseTypeLabel | src/components/profile/Profile.jsx:272-279 | known types get their label; any other type is shown as the type string itself |
| ProfileFormat.ExerciseLabelIsKeyIffUnknown | src/components/profile/Profile.jsx:272-279 | the label equals the type string iff the type is unknown; distinct known types get distinct labels and icons |
| ProfileFormat.BadgePreview | src/components/profile/Profile.jsx:483-508 | no earned badges gives the empty-state message; otherwise the first min(6, n) badges are shown in order, a "+N" tile appears iff n > 6, and shown plus N equals n |
| AddUnit.InitialForm | src/components/study/AddUnitModal.jsx:6-11 | the initial form cannot be submitted, its theme is the picker's first colour, and its description would be stored as null |
| AddUnit.HandleChange | src/components/study/AddUnitModal.jsx:69-71 | the edited field takes the new value and every other field is unchanged |
| AddUnit.EditsCompose | src/components/study/AddUnitModal.jsx:69-71 | edits to different fields commute, a later edit of the same field wins, and repeating an edit changes nothing |
| AddUnit.CanSubmit | src/components/study/AddUnitModal.jsx:221 | the button is enabled iff not loading and the title has a character outside the whitespace that `trim` removes |
| AddUnit.InitialFormNeedsTitle | src/components/study/AddUnitModal.jsx:6-11 | the initial form (empty title and description, blue, 60 minutes) cannot be submitted; typing a title enables the button |
| AddUnit.ThemePreview | src/components/study/AddUnitModal.jsx:178-193 | any theme other than the five named ones previews in yellow |
| AddUnit.ColorOptions | src/components/study/AddUnitModal.jsx:15-22 | six swatches with distinct theme values, each swatch class being "bg-" + value + "-500" |
| AddUnit.PreviewMatchesPicker | src/components/study/AddUnitModal.jsx:15-22 | every colour the picker offers previews in its own "bg-c-100" / "text-c-600" shades, different picks preview differently, and the initial theme previews blue |
| AddUnit.MaxUnitNumber | src/components/study/AddUnitModal.jsx:35-36 | the highest unit number is one of the course's numbers and no number exceeds it |
| AddUnit.NextUnitNumber | src/components/study/AddUnitModal.jsx:31-40 | 1 for a course without units; otherwise one more than an existing number, and strictly greater than every existing unit number |
| AddUnit.StoredDescription | src/components/study/AddUnitModal.jsx:48 | the description is null iff it is all whitespace; otherwise it is the trimmed, non-empty text |
| AddUnit.BuildUnitRow | src/components/study/AddUnitModal.jsx:45-54 | the row has course_id = levelId, the trimmed title, the stored description, the given unit number, unlock_requirement 0, is_active true, and the form's colour theme and duration unchanged |
| AddUnit.RowTextIsClean | src/components/study/AddUnitModal.jsx:47-48 | the row's title and description have no surrounding whitespace; a submittable form yields a non-empty title |
| AddUnit.CourseNumbers | src/components/study/AddUnitModal.jsx:34 | a number is listed iff some unit of that course carries it |
| AddUnit.InsertKeepsNumbersUnique | src/components/study/AddUnitModal.jsx:31-54 | if the course's unit numbers are distinct, appending the row the modal builds keeps them distinct |
| AddUnit.BeginSubmit | src/components/study/AddUnitModal.jsx:26-27 | entering a submission sets loading and clears the error |
| AddUnit.NoDoubleSubmit | src/components/study/AddUnitModal.jsx:221 | while a submission is in flight the button is disabled whatever the form holds |
| AddUnit.ErrorText | src/components/study/AddUnitModal.jsx:63 | the error shown is the failure's message, or "Failed to create unit" when it has none; it is never empty |
| AddUnit.HandleSubmit | src/components/study/AddUnitModal.jsx:24-66 | loading is false on every exit; a row is sent iff the unit-number query succeeded, and it is the row built from the next unit number; onCreated gets the store's row iff both calls succeeded; the error is empty iff that happened, otherwise it is the failing call's error text |
| AddUnit.SubmitReenablesButton | src/components/study/AddUnitModal.jsx:64-66 | after any submission the button is enabled again iff the trimmed title is non-empty |
| JsText.Trim | src/components/study/AddUnitModal.jsx:47 | the result has no surrounding whitespace; it is empty iff the input is all whitespace; it is the input with a whitespace-only prefix and suffix removed |
| JsText.TrimOfPadded | src/components/study/AddUnitModal.jsx:47-48 | trimming a trimmed string padded with whitespace on both sides gives it back, which characterises `trim` |
| JsText.TrimIdempotent | src/components/study/AddUnitModal.jsx:47-48 | trimming twice is trimming once |
| JsText.CanonicalIsRendered | src/components/profile/Profile.jsx:287 | a numeral with no leading zero is the numeral the template literal prints for its own value |
| JsText.ReadNatIsRendered | src/components/profile/Profile.jsx:287 | whatever the numeral reader accepts is a printed non-negative number followed by text that cannot continue it |
| JsText.ReadIntIsRendered | src/components/profile/Profile.jsx:293 | whatever the signed reader accepts is a printed integer followed by text that cannot continue it |

## Ordering and XP in the code

- Neither component sorts anything. Both rely on the store query's order: levels by `level_number` (`Profile.jsx:210`), avatars by `unlock_xp` (`Profile.jsx:182`), and the course's units by `unit_number` descending, limited to one row, for the next unit number (`AddUnitModal.jsx:35-36`).
- `NextAvatarIsCheapestLocked` takes the avatar query's order as its precondition (`UnlockAscending`).
- `BadgeSplitIsCut` and `EarnedIsPrefix` need more than the level query gives. They assume thresholds rise along the catalog (`ThresholdsAscending`). That is an assumption about the catalog's data: the query orders by level number, and no code makes `xp_required` rise with it.
- The two XP figures differ. The badge split uses `stats.totalXP || profile?.xp || 0` (`Profile.jsx:203`). Avatar gating uses `stats.totalXP` alone (`Profile.jsx:228`, `:668`).
- Nothing clamps negative XP.

## Left out

- The store queries, inserts and updates are remote I/O. Their results are inputs: the catalog rows, the course's unit numbers, and a `Remote` answer or a success flag for each write.
- The `useStudentLevels` and `useAuth` hooks are not part of this model: current/next level, progress percentage, current/next badge, `hasUnlockedPerk` and `isMaxLevel` live there, and their code is not visible.
- Clock reads and date parsing in `formatTimeAgo` (`new Date`, the millisecond-to-minute conversion) and `toLocaleDateString` are ambient time and floating point; only the bucketing of a whole number of elapsed minutes is modelled.
- `parseInt` of the duration input and the input's `min`/`max` attributes: the duration is any integer, as the code enforces no bounds.
- A failed level query (`Profile.jsx:212`, caught at `:222-224`) leaves the earned and upcoming lists as they were, initially empty. The model takes the level rows as given and does not model this error path.
- React state scheduling is left out. Both calls of `processBadges` (`Profile.jsx:83`, `:140`) read the `stats` of an earlier render. `BadgeXpFollowsProfile` covers only two cases: the first load, where the statistics are still 0, and a reload where the profile XP has not changed. When the profile XP changes while the screen is mounted, the split can use an outdated XP. `StaleStatsNeedCanBeNegative` shows the effect. JSX rendering, image `onError` handlers and console logging are left out too.
- Progression.UpcomingNeedIsPositive: assumes the split and the modal read the same statistics XP, which stale statistics can break (see `StaleStatsNeedCanBeNegative`).
- Numbers are unbounded integers. JavaScript numbers are doubles, exact only up to 2^53, and print in exponent notation from 10^21 on (`1e+21`). Labels built from numbers, XP arithmetic and `unit_number + 1` (`AddUnitModal.jsx:40`) are modelled for integers of safe magnitude only.
- ProfileFormat.FormatPracticeTime: "different minute counts get different labels" holds for the model's unbounded integers; in JavaScript it holds only below 10^21, where numerals are not in exponent notation.
- AddUnit.InsertKeepsNumbersUnique: assumes no other unit of the course is inserted between the unit-number query (`AddUnitModal.jsx:31-36`) and the insert (`:43-56`). These are two separate remote calls. Two submissions that both query before either inserts get the same number, and nothing in the code or the model prevents that.
- Profile editing (`handleEditToggle`, `handleSaveProfile`) and the initial avatar `profile.avatar_url || '👤'` are presentation glue outside the gamification rules.
- The lookup tables are modelled as tables over their own keys; JavaScript object-prototype keys such as `"constructor"`, which a plain object lookup would also answer, are not modelled.
- A missing `exercise_type` (`activity.exercises?.exercise_type` being undefined) is not modelled; the type is always a string.
- Thresholds are integers; a `null` or non-numeric `xp_required` or `unlock_xp`, which JavaScript comparisons would treat specially, is not modelled.
- A `null` `unit_number` is not modelled: a descending order would list it first and give the next unit number 1.
- An exception thrown by the `onCreated` callback, which the same `catch` would turn into an error message, is not modelled.
- AverageScore: rounds the exact quotient `sum / count`; the source divides in floating point before `Math.round`, which agrees for realistic sums and counts but is not modelled bit for bit.
- Progression.Earned: its own contract bounds only the length; which levels it keeps, and in what order, is stated by `BadgeMembership`, `BadgePartition` and `BadgeSplitKeepsOrder`, which keeps each proof small.
- Progression.Upcoming: likewise bounded only in length by its own contract; its contents are stated by the same three lemmas.

=== FILE: add_unit.dfy ===
/**
 * The "Create New Unit" modal: its form state and field updates, the rule
 * that enables the submit button, the colour-theme preview, the numbering
 * of the new unit, the row it inserts, and the loading/error lifecycle of a
 * submission. The two store calls become parameters carrying their answers.
 */
module AddUnit {
  import opened Wrappers
  import opened JsText

  /** The form fields. */
  datatype UnitForm = UnitForm(
    title: string,
    description: string,
    colorTheme: string,
    estimatedDuration: int)

  /** The form the modal opens with. */
  function InitialForm(): (form: UnitForm)
    ensures !CanSubmit(false, form)
    ensures form.colorTheme == ColorOptions()[0].value
    ensures StoredDescription(form.description) == None
  {
    UnitForm("", "", "blue", 60)
  }

  // ---------------------------------------------------------------------------
  // Field updates

  datatype Field = Title | Description | ColorTheme | EstimatedDuration

  /** A call `handleChange(field, value)`, typed by the field it sets. */
  datatype Edit =
    | SetTitle(title: string)
    | SetDescription(description: string)
    | SetColorTheme(theme: string)
    | SetDuration(minutes: int)

  function EditedField(e: Edit): Field {
    match e
    case SetTitle(_) => Title
    case SetDescription(_) => Description
    case SetColorTheme(_) => ColorTheme
    case SetDuration(_) => EstimatedDuration
  }

  /** `f` and `g` agree on `field`. */
  predicate AgreeOn(f: UnitForm, g: UnitForm, field: Field) {
    match field
    case Title => f.title == g.title
    case Description => f.description == g.description
    case ColorTheme => f.colorTheme == g.colorTheme
    case EstimatedDuration => f.estimatedDuration == g.estimatedDuration
  }

  /** The edit's value is in place in `f`. */
  predicate Holds(f: UnitForm, e: Edit) {
    match e
    case SetTitle(t) => f.title == t
    case SetDescription(d) => f.description == d
    case SetColorTheme(c) => f.colorTheme == c
    case SetDuration(m) => f.estimatedDuration == m
  }

  /** `handleChange`: copy the form with the one edited field replaced. */
  function HandleChange(form: UnitForm, e: Edit): (f: UnitForm)
    ensures Holds(f, e)
    ensures forall field :: field != EditedField(e) ==> AgreeOn(f, form, field)
  {
    match e
    case SetTitle(t) => form.(title := t)
    case SetDescription(d) => form.(description := d)
    case SetColorTheme(c) => form.(colorTheme := c)
    case SetDuration(m) => form.(estimatedDuration := m)
  }

  /**
   * Edits to different fields commute, a later edit of the same field wins,
   * and repeating an edit changes nothing.
   */
  lemma EditsCompose(form: UnitForm, e1: Edit, e2: Edit)
    ensures EditedField(e1) != EditedField(e2) ==>
      HandleChange(HandleChange(form, e1), e2) == HandleChange(HandleChange(form, e2), e1)
    ensures EditedField(e1) == EditedField(e2) ==>
      HandleChange(HandleChange(form, e1), e2) == HandleChange(form, e2)
    ensures HandleChange(HandleChange(form, e1), e1) == HandleChange(form, e1)
  {
  }

  // ---------------------------------------------------------------------------
  // Submit button and preview

  /** The submit button is enabled: nothing is loading and the title is not blank once trimmed. */
  function CanSubmit(loading: bool, form: UnitForm): (b: bool)
    ensures b <==> !loading && exists i :: 0 <= i < |form.title| && !IsWhitespace(form.title[i])
  {
    !loading && Trim(form.title) != ""
  }

  /** The fresh form cannot be submitted until a title is typed. */
  lemma InitialFormNeedsTitle(loading: bool)
    ensures !CanSubmit(loading, InitialForm())
    ensures CanSubmit(false, HandleChange(InitialForm(), SetTitle("Basic Vocabulary")))
  {
    assert !IsWhitespace("Basic Vocabulary"[0]);
  }

  /** The preview tile's background and icon colour classes. */
  datatype PreviewStyle = PreviewStyle(background: string, icon: string)

  /** The theme chain of the preview tile: five named themes, anything else yellow. */
  function ThemePreview(theme: string): (p: PreviewStyle)
    ensures theme !in ["blue", "green", "purple", "orange", "red"] ==> p == PreviewStyle("bg-yellow-100", "text-yellow-600")
  {
    if theme == "blue" then PreviewStyle("bg-blue-100", "text-blue-600")
    else if theme == "green" then PreviewStyle("bg-green-100", "text-green-600")
    else if theme == "purple" then PreviewStyle("bg-purple-100", "text-purple-600")
    else if theme == "orange" then PreviewStyle("bg-orange-100", "text-orange-600")
    else if theme == "red" then PreviewStyle("bg-red-100", "text-red-600")
    else PreviewStyle("bg-yellow-100", "text-yellow-600")
  }

  /** A swatch of the colour picker. */
  datatype ColorOption = ColorOption(value: string, name: string, swatch: string)

  /** The picker's swatches, each named after its theme value. */
  function ColorOptions(): (options: seq<ColorOption>)
    ensures |options| == 6
    ensures forall i :: 0 <= i < |options| ==> options[i].swatch == "bg-" + options[i].value + "-500"
    ensures forall i, j :: 0 <= i < j < |options| ==> options[i].value != options[j].value
  {
    [ ColorOption("blue", "Blue", "bg-blue-500"),
      ColorOption("green", "Green", "bg-green-500"),
      ColorOption("purple", "Purple", "bg-purple-500"),
      ColorOption("orange", "Orange", "bg-orange-500"),
      ColorOption("red", "Red", "bg-red-500"),
      ColorOption("yellow", "Yellow", "bg-yellow-500") ]
  }

  /** The preview classes named after a colour, in the shades the preview uses. */
  function ShadesOf(color: string): PreviewStyle {
    PreviewStyle("bg-" + color + "-100", "text-" + color + "-600")
  }

  /**
   * Every colour the picker offers previews in its own shades, so different
   * picks look different; the initial theme previews blue.
   */
  lemma PreviewMatchesPicker(i: nat, j: nat)
    requires i < |ColorOptions()| && j < |ColorOptions()|
    ensures ThemePreview(ColorOptions()[i].value) == ShadesOf(ColorOptions()[i].value)
    ensures i != j ==> ThemePreview(ColorOptions()[i].value) != ThemePreview(ColorOptions()[j].value)
    ensures ThemePreview(InitialForm().colorTheme) == ShadesOf("blue")
  {
    PickerShades(i);
    PickerShades(j);
    PickerShades(0);
    var bi, bj := ThemePreview(ColorOptions()[i].value).background, ThemePreview(ColorOptions()[j].value).background;
    if i != j {
      assert bi[3] != bj[3];
    }
  }

  lemma PickerShades(i: nat)
    requires i < |ColorOptions()|
    ensures ThemePreview(ColorOptions()[i].value) == ShadesOf(ColorOptions()[i].value)
  {
    if i < 3 { FirstPickerShades(i); } else { LastPickerShades(i); }
  }

  lemma FirstPickerShades(i: nat)
    requires i < 3
    ensures ThemePreview(ColorOptions()[i].value) == ShadesOf(ColorOptions()[i].value)
  {
    var c := ColorOptions()[i].value;
    if i == 0 {
      assert ShadesOf(c) == PreviewStyle("bg-blue-100", "text-blue-600");
    } else if i == 1 {
      assert ShadesOf(c) == PreviewStyle("bg-green-100", "text-green-600");
    } else {
      assert ShadesOf(c) == PreviewStyle("bg-purple-100", "text-purple-600");
    }
  }

  lemma LastPickerShades(i: nat)
    requires 3 <= i < 6
    ensures ThemePreview(ColorOptions()[i].value) == ShadesOf(ColorOptions()[i].value)
  {
    var c := ColorOptions()[i].value;
    if i == 3 {
      assert ShadesOf(c) == PreviewStyle("bg-orange-100", "text-orange-600");
    } else if i == 4 {
      assert ShadesOf(c) == PreviewStyle("bg-red-100", "text-red-600");
    } else {
      assert ShadesOf(c) == PreviewStyle("bg-yellow-100", "text-yellow-600");
    }
  }

  // ---------------------------------------------------------------------------
  // The inserted row

  /** A row of the units table, as the modal inserts it. */
  datatype UnitRow = UnitRow(
    courseId: string,
    title: string,
    description: Option<string>,
    unitNumber: int,
    colorTheme: string,
    unlockRequirement: int,
    isActive: bool,
    estimatedDuration: int)

  /** The largest unit number of a course. */
  function MaxUnitNumber(numbers: seq<int>): (m: int)
    requires numbers != []
    ensures m in numbers
    ensures forall u :: u in numbers ==> u <= m
  {
    if |numbers| == 1 then numbers[0]
    else
      var rest := MaxUnitNumber(numbers[1..]);
      assert forall u :: u in numbers ==> u == numbers[0] || u in numbers[1..];
      if numbers[0] >= rest then numbers[0] else rest
  }

  /**
   * The number the new unit gets: the course's highest unit number plus one
   * (the store query orders by unit number descending and keeps one row), or
   * 1 for a course without units.
   */
  function NextUnitNumber(numbers: seq<int>): (n: int)
    ensures numbers == [] ==> n == 1
    ensures numbers != [] ==> n - 1 in numbers
    ensures forall u :: u in numbers ==> u < n
  {
    if numbers == [] then 1 else MaxUnitNumber(numbers) + 1
  }

  /** The stored description: the trimmed text, or null when trimming leaves nothing. */
  function StoredDescription(description: string): (d: Option<string>)
    ensures d.None? <==> AllWhitespace(description)
    ensures d.Some? ==> d.value == Trim(description) && d.value != [] && Trimmed(d.value)
  {
    var t := Trim(description);
    if t == "" then None else Some(t)
  }

  /** The object passed to the insert call. */
  function BuildUnitRow(levelId: string, form: UnitForm, unitNumber: int): (row: UnitRow)
    ensures row.courseId == levelId && row.unitNumber == unitNumber
    ensures row.title == Trim(form.title)
    ensures row.description == StoredDescription(form.description)
    ensures row.colorTheme == form.colorTheme && row.estimatedDuration == form.estimatedDuration
    ensures row.unlockRequirement == 0 && row.isActive
  {
    UnitRow(levelId, Trim(form.title), StoredDescription(form.description),
            unitNumber, form.colorTheme, 0, true, form.estimatedDuration)
  }

  /**
   * Whatever the form holds, the row's text carries no surrounding
   * whitespace, and a form that could be submitted yields a non-empty title.
   */
  lemma RowTextIsClean(levelId: string, form: UnitForm, unitNumber: int, loading: bool)
    ensures var row := BuildUnitRow(levelId, form, unitNumber);
      && Trimmed(row.title)
      && Trim(row.title) == row.title
      && (row.description.Some? ==> Trim(row.description.value) == row.description.value)
      && (CanSubmit(loading, form) ==> row.title != "")
  {
    var row := BuildUnitRow(levelId, form, unitNumber);
    TrimIdempotent(form.title);
    TrimIdempotent(form.description);
  }

  /** The unit numbers of one course among the rows of the units table. */
  function CourseNumbers(rows: seq<UnitRow>, courseId: string): (r: seq<int>)
    ensures forall u :: u in r <==> exists row :: row in rows && row.courseId == courseId && row.unitNumber == u
  {
    if rows == [] then []
    else
      var rest := CourseNumbers(rows[1..], courseId);
      assert forall row :: row in rows <==> row == rows[0] || row in rows[1..];
      if rows[0].courseId == courseId then [rows[0].unitNumber] + rest else rest
  }

  /** No two units of the course share a number. */
  predicate UniqueNumbers(rows: seq<UnitRow>, courseId: string) {
    forall i, j :: 0 <= i < j < |rows| && rows[i].courseId == courseId && rows[j].courseId == courseId
      ==> rows[i].unitNumber != rows[j].unitNumber
  }

  /**
   * Appending the row the modal builds keeps the course's unit numbers
   * unique, because the new number exceeds every existing one.
   */
  lemma InsertKeepsNumbersUnique(rows: seq<UnitRow>, levelId: string, form: UnitForm)
    requires UniqueNumbers(rows, levelId)
    ensures UniqueNumbers(rows + [BuildUnitRow(levelId, form, NextUnitNumber(CourseNumbers(rows, levelId)))], levelId)
  {
    var numbers := CourseNumbers(rows, levelId);
    var row := BuildUnitRow(levelId, form, NextUnitNumber(numbers));
    var all := rows + [row];
    forall i | 0 <= i < |rows| && rows[i].courseId == levelId
      ensures rows[i].unitNumber < row.unitNumber
    {
      assert rows[i] in rows;
      assert rows[i].unitNumber in numbers;
    }
    forall i, j | 0 <= i < j < |all| && all[i].courseId == levelId && all[j].courseId == levelId
      ensures all[i].unitNumber != all[j].unitNumber
    {
      if j < |rows| {
        assert all[i] == rows[i] && all[j] == rows[j];
      } else {
        assert all[i] == rows[i] && all[j] == row;
      }
    }
  }

  // ---------------------------------------------------------------------------
  // Submission lifecycle

  /** The modal's `loading` and `error` state. */
  datatype SubmitState = SubmitState(loading: bool, error: string)

  /** The answer of a store call: its data, or a failure with its message ("" when it has none). */
  datatype Remote<T> = Done(value: T) | Failed(message: string)

  /** Entering `handleSubmit`: loading starts and any earlier error is cleared. */
  function BeginSubmit(s: SubmitState): (t: SubmitState)
    ensures t.loading && t.error == ""
  {
    SubmitState(true, "")
  }

  /** While a submission is in flight the button is disabled, whatever the form holds. */
  lemma NoDoubleSubmit(s: SubmitState, form: UnitForm)
    ensures !CanSubmit(BeginSubmit(s).loading, form)
  {
  }

  const DefaultError := "Failed to create unit"

  /** The error shown after a failure: its message, or a fixed text when the message is empty or missing. */
  function ErrorText(message: string): (e: string)
    ensures e != ""
    ensures message != "" ==> e == message
    ensures message == "" ==> e == DefaultError
  {
    if message != "" then message else DefaultError
  }

  /** What a submission ends with: the state, the row sent to the store if any, and the row handed to `onCreated` if any. */
  datatype SubmitOutcome = SubmitOutcome(state: SubmitState, sent: Option<UnitRow>, created: Option<UnitRow>)

  /**
   * `handleSubmit`: read the course's unit numbers, build and insert the row,
   * and report. `unitQuery` and `insert` stand for the two store answers.
   */
  function HandleSubmit(levelId: string, form: UnitForm, unitQuery: Remote<seq<int>>, insert: Remote<UnitRow>): (o: SubmitOutcome)
    ensures !o.state.loading
    ensures o.state.error == "" <==> o.created.Some?
    ensures o.sent.Some? <==> unitQuery.Done?
    ensures unitQuery.Done? ==> o.sent == Some(BuildUnitRow(levelId, form, NextUnitNumber(unitQuery.value)))
    ensures o.created.Some? <==> unitQuery.Done? && insert.Done?
    ensures o.created.Some? ==> o.created.value == insert.value
    ensures unitQuery.Failed? ==> o.state.error == ErrorText(unitQuery.message)
    ensures unitQuery.Done? && insert.Failed? ==> o.state.error == ErrorText(insert.message)
  {
    match unitQuery
    case Failed(m) => SubmitOutcome(SubmitState(false, ErrorText(m)), None, None)
    case Done(numbers) =>
      var row := BuildUnitRow(levelId, form, NextUnitNumber(numbers));
      match insert
      case Failed(m) => SubmitOutcome(SubmitState(false, ErrorText(m)), Some(row), None)
      case Done(data) => SubmitOutcome(SubmitState(false, ""), Some(row), Some(data))
  }

  /** After any submission the form can be submitted again when its title is non-blank. */
  lemma SubmitReenablesButton(levelId: string, form: UnitForm, unitQuery: Remote<seq<int>>, insert: Remote<UnitRow>)
    ensures CanSubmit(HandleSubmit(levelId, form, unitQuery, insert).state.loading, form) <==> Trim(form.title) != ""
  {
  }
}

=== FILE: js_text.dfy ===
/**
 * The string primitives the two components rely on: `String.prototype.trim`
 * and the decimal rendering of an integer inside a template literal. A small
 * reader for decimal numerals is the partner of the renderer, so that labels
 * built from numbers can be shown to determine those numbers.
 */
module JsText {
  import opened Wrappers

  /** The characters `String.prototype.trim` strips: ECMAScript WhiteSpace and LineTerminator. */
  predicate IsWhitespace(c: char) {
    || c == '\t' || c == '\n' || c == '\U{000B}' || c == '\U{000C}' || c == '\r' || c == ' '
    || c == '\U{00A0}' || c == '\U{1680}' || ('\U{2000}' <= c <= '\U{200A}')
    || c == '\U{2028}' || c == '\U{2029}' || c == '\U{202F}' || c == '\U{205F}'
    || c == '\U{3000}' || c == '\U{FEFF}'
  }

  predicate AllWhitespace(s: string) {
    forall i :: 0 <= i < |s| ==> IsWhitespace(s[i])
  }

  /** A string with nothing left for `trim` to strip. */
  predicate Trimmed(s: string) {
    s == [] || (!IsWhitespace(s[0]) && !IsWhitespace(s[|s| - 1]))
  }

  /** Length of the whitespace run that starts the string. */
  function LeadingSpace(s: string): (n: nat)
    ensures n <= |s|
    ensures AllWhitespace(s[..n])
    ensures n < |s| ==> !IsWhitespace(s[n])
  {
    if |s| == 0 || !IsWhitespace(s[0]) then 0 else 1 + LeadingSpace(s[1..])
  }

  /** Length of the whitespace run that ends the string. */
  function TrailingSpace(s: string): (n: nat)
    ensures n <= |s|
    ensures AllWhitespace(s[|s| - n..])
    ensures n < |s| ==> !IsWhitespace(s[|s| - n - 1])
  {
    if |s| == 0 || !IsWhitespace(s[|s| - 1]) then 0
    else
      var t := s[..|s| - 1];
      var m := TrailingSpace(t);
      assert s[|s| - (m + 1)..] == t[|t| - m..] + [s[|s| - 1]];
      assert m < |t| ==> s[|s| - (m + 1) - 1] == t[|t| - m - 1];
      1 + m
  }

  /** `s.trim()`: the middle of `s` once the leading and trailing whitespace is gone. */
  function Trim(s: string): (r: string)
    ensures Trimmed(r)
    ensures r == [] <==> AllWhitespace(s)
    ensures var k := LeadingSpace(s);
      && k + |r| <= |s|
      && s[k..k + |r|] == r
      && AllWhitespace(s[..k])
      && AllWhitespace(s[k + |r|..])
  {
    var k := LeadingSpace(s);
    var rest := s[k..];
    var m := TrailingSpace(rest);
    var r := rest[..|rest| - m];
    assert r != [] ==> r[0] == s[k] && r[|r| - 1] == rest[|rest| - m - 1];
    assert r == [] ==> AllWhitespace(s) by {
      if r == [] {
        assert rest == rest[|rest| - m..];
        assert s == s[..k];
      }
    }
    assert AllWhitespace(s) ==> k == |s|;
    assert s[k..k + |r|] == r;
    assert s[k + |r|..] == rest[|rest| - m..];
    r
  }

  /** A run of whitespace that does not start with whitespace is at offset zero. */
  lemma {:induction false} LeadingSpaceOfPadded(w: string, t: string)
    requires AllWhitespace(w)
    requires t == [] || !IsWhitespace(t[0])
    ensures LeadingSpace(w + t) == |w|
  {
    var s := w + t;
    assert forall i :: 0 <= i < |w| ==> s[i] == w[i];
    assert |s| > |w| ==> s[|w|] == t[0];
  }

  lemma {:induction false} TrailingSpaceOfPadded(t: string, w: string)
    requires AllWhitespace(w)
    requires t == [] || !IsWhitespace(t[|t| - 1])
    ensures TrailingSpace(t + w) == |w|
  {
    var s := t + w;
    assert forall i :: |t| <= i < |s| ==> s[i] == w[i - |t|];
    assert |s| > |w| ==> s[|s| - |w| - 1] == t[|t| - 1];
  }

  /**
   * `trim` is characterised by its result: padding a trimmed string with
   * whitespace on both sides and trimming gives the string back.
   */
  lemma {:induction false} TrimOfPadded(w1: string, t: string, w2: string)
    requires AllWhitespace(w1) && AllWhitespace(w2)
    requires Trimmed(t)
    ensures Trim(w1 + t + w2) == t
  {
    var s := w1 + t + w2;
    if t == [] {
      assert AllWhitespace(s) by {
        forall i | 0 <= i < |s| ensures IsWhitespace(s[i]) {
          if i < |w1| { assert s[i] == w1[i]; } else { assert s[i] == w2[i - |w1|]; }
        }
      }
    } else {
      LeadingSpaceOfPadded(w1, t + w2);
      assert s == w1 + (t + w2);
      var rest := s[|w1|..];
      assert rest == t + w2;
      TrailingSpaceOfPadded(t, w2);
      assert rest[..|rest| - |w2|] == t;
    }
  }

  /** Trimming twice is trimming once. */
  lemma TrimIdempotent(s: string)
    ensures Trim(Trim(s)) == Trim(s)
  {
    var t := Trim(s);
    TrimOfPadded([], t, []);
    assert [] + t + [] == t;
  }

  // ---------------------------------------------------------------------------
  // Decimal numerals

  predicate IsDigit(c: char) {
    '0' <= c <= '9'
  }

  predicate AllDigits(s: string) {
    forall i :: 0 <= i < |s| ==> IsDigit(s[i])
  }

  function DigitValue(c: char): nat
    requires IsDigit(c)
  {
    c as int - '0' as int
  }

  function DigitChar(d: nat): (c: char)
    requires d < 10
    ensures IsDigit(c) && DigitValue(c) == d
  {
    ('0' as int + d) as char
  }

  /**
   * The numeral JavaScript prints for a non-negative safe integer: no sign, no
   * leading zero. Integers here are unbounded; JavaScript switches to exponent
   * notation from 10^21 on, which is not modelled.
   */
  function NatToString(n: nat): (r: string)
    ensures 1 <= |r| && AllDigits(r)
    ensures r[0] == '0' <==> n == 0
    ensures n < 10 ==> |r| == 1
  {
    if n < 10 then [DigitChar(n)] else NatToString(n / 10) + [DigitChar(n % 10)]
  }

  /** The numeral JavaScript prints for an integer of safe magnitude. */
  function IntToString(i: int): (r: string)
    ensures 1 <= |r|
    ensures r[0] == '-' <==> i < 0
  {
    if i < 0 then "-" + NatToString(-i) else NatToString(i)
  }

  /** The value a numeral denotes. */
  function DigitsValue(s: string): nat
    requires AllDigits(s)
  {
    if s == [] then 0 else 10 * DigitsValue(s[..|s| - 1]) + DigitValue(s[|s| - 1])
  }

  lemma {:induction false} NatToStringRoundTrip(n: nat)
    ensures DigitsValue(NatToString(n)) == n
  {
    if n >= 10 {
      var r := NatToString(n);
      assert r[..|r| - 1] == NatToString(n / 10);
      NatToStringRoundTrip(n / 10);
    }
  }

  /** Length of the run of digits that starts the string. */
  function DigitPrefix(s: string): (k: nat)
    ensures k <= |s|
    ensures AllDigits(s[..k])
    ensures k < |s| ==> !IsDigit(s[k])
  {
    if |s| == 0 || !IsDigit(s[0]) then 0 else 1 + DigitPrefix(s[1..])
  }

  /** A numeral as JavaScript prints it: digits, and no leading zero unless it is "0" itself. */
  predicate Canonical(d: string) {
    1 <= |d| && AllDigits(d) && (|d| > 1 ==> d[0] != '0')
  }

  /**
   * Reads the leading numeral, if any, and returns its value with the text
   * after it. Only a canonical numeral is accepted, so a zero-padded one is not.
   */
  function ReadNat(s: string): Option<(nat, string)>
  {
    var k := DigitPrefix(s);
    if k == 0 || (k > 1 && s[0] == '0') then None else Some((DigitsValue(s[..k]), s[k..]))
  }

  /** Reads an optionally negative leading numeral; "-0" is not a numeral JavaScript prints. */
  function ReadInt(s: string): Option<(int, string)>
  {
    if |s| > 0 && s[0] == '-' then
      match ReadNat(s[1..])
      case Some((n, rest)) => if n == 0 then None else Some((-(n as int), rest))
      case None => None
    else
      match ReadNat(s)
      case Some((n, rest)) => Some((n, rest))
      case None => None
  }

  /** Text that cannot continue a numeral. */
  predicate StopsNumeral(t: string) {
    t == [] || !IsDigit(t[0])
  }

  lemma {:induction false} DigitPrefixOfNumeral(d: string, t: string)
    requires AllDigits(d)
    requires StopsNumeral(t)
    ensures DigitPrefix(d + t) == |d|
  {
    var s := d + t;
    assert forall i :: 0 <= i < |d| ==> s[i] == d[i];
    assert |s| > |d| ==> s[|d|] == t[0];
  }

  /** Reading back a rendered numeral gives the number and the text that followed it. */
  lemma ReadNatRendered(n: nat, t: string)
    requires StopsNumeral(t)
    ensures ReadNat(NatToString(n) + t) == Some((n, t))
  {
    var d := NatToString(n);
    DigitPrefixOfNumeral(d, t);
    assert (d + t)[..|d|] == d;
    assert (d + t)[|d|..] == t;
    NatToStringRoundTrip(n);
  }

  lemma ReadIntRendered(i: int, t: string)
    requires StopsNumeral(t)
    ensures ReadInt(IntToString(i) + t) == Some((i, t))
  {
    if i < 0 {
      ReadNegativeRendered(-i, t);
    } else {
      ReadNatRendered(i, t);
      assert (NatToString(i) + t)[0] != '-';
    }
  }

  lemma ReadNegativeRendered(n: nat, t: string)
    requires n > 0 && StopsNumeral(t)
    ensures ReadInt("-" + NatToString(n) + t) == Some((-(n as int), t))
  {
    var s := "-" + NatToString(n) + t;
    assert s[1..] == NatToString(n) + t;
    ReadNatRendered(n, t);
  }

  /** A digit's character is given back by its value. */
  lemma DigitCharOfValue(c: char)
    requires IsDigit(c)
    ensures DigitChar(DigitValue(c)) == c
  {
  }

  /** A numeral that does not start with zero denotes a positive number. */
  lemma {:induction false} LeadingNonZero(d: string)
    requires 1 <= |d| && AllDigits(d) && d[0] != '0'
    ensures DigitsValue(d) >= 1
  {
    if |d| > 1 {
      var p := d[..|d| - 1];
      assert p[0] == d[0];
      LeadingNonZero(p);
    }
  }

  /** A canonical numeral is the numeral of its own value: no other text renders that number. */
  lemma {:induction false} CanonicalIsRendered(d: string)
    requires Canonical(d)
    ensures NatToString(DigitsValue(d)) == d
  {
    var last := d[|d| - 1];
    DigitCharOfValue(last);
    if |d| > 1 {
      var p := d[..|d| - 1];
      assert p[0] == d[0];
      CanonicalIsRendered(p);
      LeadingNonZero(p);
      var v := DigitsValue(d);
      assert v / 10 == DigitsValue(p) && v % 10 == DigitValue(last);
      assert d == p + [last];
    }
  }

  /** Whatever `ReadNat` accepts is a rendered numeral followed by text that stops it. */
  lemma ReadNatIsRendered(s: string)
    requires ReadNat(s).Some?
    ensures var (n, t) := ReadNat(s).value;
      StopsNumeral(t) && s == NatToString(n) + t
  {
    var k := DigitPrefix(s);
    var d := s[..k];
    CanonicalIsRendered(d);
    assert s == d + s[k..];
  }

  /** Whatever `ReadInt` accepts is a rendered integer followed by text that stops it. */
  lemma ReadIntIsRendered(s: string)
    requires ReadInt(s).Some?
    ensures var (i, t) := ReadInt(s).value;
      StopsNumeral(t) && s == IntToString(i) + t
  {
    if |s| > 0 && s[0] == '-' {
      ReadNatIsRendered(s[1..]);
      assert s == "-" + s[1..];
    } else {
      ReadNatIsRendered(s);
    }
  }
}

=== FILE: profile_format.dfy ===
/**
 * The small derived values the profile screen shows: the average score,
 * the practice-time and elapsed-time labels, the tier and exercise-type
 * lookup tables, and the six-badge preview strip.
 */
module ProfileFormat {
  import opened Wrappers
  import opened JsText

  // ---------------------------------------------------------------------------
  // Average score

  /** A row of the user's progress: its status and its score, which may be missing. */
  datatype ProgressRow = ProgressRow(status: string, score: Option<int>)

  /** The progress rows whose status is "completed", in order. */
  function Completed(rows: seq<ProgressRow>): (r: seq<ProgressRow>)
    ensures |r| <= |rows|
    ensures forall p :: p in r <==> p in rows && p.status == "completed"
    ensures forall p :: multiset(r)[p] == if p.status == "completed" then multiset(rows)[p] else 0
  {
    if rows == [] then []
    else
      var head := if rows[0].status == "completed" then [rows[0]] else [];
      var r := head + Completed(rows[1..]);
      assert rows == [rows[0]] + rows[1..];
      assert multiset(rows) == multiset{rows[0]} + multiset(rows[1..]);
      assert multiset(r) == multiset(head) + multiset(Completed(rows[1..]));
      r
  }

  /** A score as the average counts it: a missing score counts as zero. */
  function ScoreOrZero(p: ProgressRow): int {
    p.score.GetOr(0)
  }

  function ScoreSum(rows: seq<ProgressRow>): int {
    if rows == [] then 0 else ScoreOrZero(rows[0]) + ScoreSum(rows[1..])
  }

  /**
   * The mean score of the completed rows rounded to an integer, 0 when there
   * are none. `Math.round` rounds halves upwards, so the result is the integer `r` with
   * `r - 1/2 <= sum / count < r + 1/2`.
   */
  function AverageScore(rows: seq<ProgressRow>): (r: int)
    ensures |Completed(rows)| == 0 ==> r == 0
    ensures var c, s := |Completed(rows)|, ScoreSum(Completed(rows));
      c > 0 ==> 2 * c * r - c <= 2 * s < 2 * c * r + c
  {
    var done := Completed(rows);
    var c := |done|;
    if c == 0 then 0
    else
      var r := (2 * ScoreSum(done) + c) / (2 * c);
      DivisionBounds(2 * ScoreSum(done) + c, 2 * c);
      r
  }

  lemma DivisionBounds(a: int, b: int)
    requires b > 0
    ensures b * (a / b) <= a < b * (a / b) + b
  {
  }

  /** Scores within [lo, hi] sum to a total within [lo * n, hi * n]. */
  lemma {:induction false} ScoreSumBounds(rows: seq<ProgressRow>, lo: int, hi: int)
    requires forall i :: 0 <= i < |rows| ==> lo <= ScoreOrZero(rows[i]) <= hi
    ensures lo * |rows| <= ScoreSum(rows) <= hi * |rows|
  {
    if rows != [] {
      var n := |rows| - 1;
      assert forall i :: 0 <= i < n ==> rows[1..][i] == rows[i + 1];
      ScoreSumBounds(rows[1..], lo, hi);
      assert ScoreSum(rows) == ScoreOrZero(rows[0]) + ScoreSum(rows[1..]);
      assert lo * |rows| == lo + lo * n;
      assert hi * |rows| == hi + hi * n;
    }
  }

  /** Completed scores between 0 and 100 give an average between 0 and 100. */
  lemma AverageScoreInRange(rows: seq<ProgressRow>)
    requires forall p :: p in rows && p.status == "completed" ==> 0 <= ScoreOrZero(p) <= 100
    ensures 0 <= AverageScore(rows) <= 100
  {
    var done := Completed(rows);
    var c, r := |done|, AverageScore(rows);
    if c > 0 {
      assert forall i :: 0 <= i < c ==> done[i] in done;
      ScoreSumBounds(done, 0, 100);
      RoundedBounds(c, ScoreSum(done), r, 0, 100);
    }
  }

  /** Every completed score equal to `k` gives the average `k`. */
  lemma AverageOfEqualScores(rows: seq<ProgressRow>, k: int)
    requires |Completed(rows)| > 0
    requires forall p :: p in rows && p.status == "completed" ==> ScoreOrZero(p) == k
    ensures AverageScore(rows) == k
  {
    var done := Completed(rows);
    assert forall i :: 0 <= i < |done| ==> done[i] in done;
    ScoreSumBounds(done, k, k);
    RoundedBounds(|done|, ScoreSum(done), AverageScore(rows), k, k);
  }

  /** A half-up rounding of `s / c` with `lo * c <= s <= hi * c` lies within [lo, hi]. */
  lemma RoundedBounds(c: int, s: int, r: int, lo: int, hi: int)
    requires c > 0
    requires 2 * c * r - c <= 2 * s < 2 * c * r + c
    requires lo * c <= s <= hi * c
    ensures lo <= r <= hi
  {
    assert c * (2 * r - 1 - 2 * hi) == 2 * c * r - c - 2 * (hi * c);
    NonPositiveFactor(c, 2 * r - 1 - 2 * hi);
    assert c * (2 * lo - 2 * r - 1) == 2 * (lo * c) - (2 * c * r + c);
    NonPositiveFactor(c, 2 * lo - 2 * r - 1);
  }

  lemma NonPositiveFactor(c: int, x: int)
    requires c > 0 && c * x <= 0
    ensures x <= 0
  {
  }

  // ---------------------------------------------------------------------------
  // Practice time

  /** The three shapes of the practice-time label. */
  datatype PracticeTime =
    | Minutes(minutes: int)            // "m phút"
    | WholeHours(hours: nat)           // "h giờ"
    | HoursMinutes(hours: nat, rest: nat) // "hh rm"

  /** The shape `formatPracticeTime` picks for a number of minutes. */
  function PracticeTimeShape(minutes: int): (p: PracticeTime)
    ensures p.Minutes? <==> minutes < 60
    ensures p.Minutes? ==> p.minutes == minutes
    ensures p.WholeHours? ==> p.hours >= 1 && p.hours * 60 == minutes
    ensures p.HoursMinutes? ==> p.hours >= 1 && 1 <= p.rest < 60 && p.hours * 60 + p.rest == minutes
    ensures PracticeMinutes(p) == minutes
  {
    if minutes < 60 then Minutes(minutes)
    else
      var hours, rest := minutes / 60, minutes % 60;
      if rest > 0 then HoursMinutes(hours, rest) else WholeHours(hours)
  }

  /** The minutes a practice-time shape stands for. */
  function PracticeMinutes(p: PracticeTime): int {
    match p
    case Minutes(m) => m
    case WholeHours(h) => h * 60
    case HoursMinutes(h, r) => h * 60 + r
  }

  /** The text of a shape; each shape has its own text, which reads back as that shape. */
  function RenderPracticeTime(p: PracticeTime): (text: string)
    ensures ParsePracticeTime(text) == Some(p)
  {
    match p
    case Minutes(m) =>
      ReadIntRendered(m, " phút");
      IntToString(m) + " phút"
    case WholeHours(h) =>
      WholeHoursRoundTrip(h);
      NatToString(h) + " giờ"
    case HoursMinutes(h, r) =>
      HoursMinutesRoundTrip(h, r);
      NatToString(h) + HoursTailText(r)
  }

  /** What follows the hours in "hh rm". */
  function HoursTailText(r: nat): string {
    "h " + NatToString(r) + "m"
  }

  /**
   * `formatPracticeTime`: the label for a total practice time in minutes. It
   * reads back as the shape chosen for the minutes: "m phút" under an hour,
   * "h giờ" for whole hours, "hh rm" otherwise.
   */
  function FormatPracticeTime(minutes: int): (text: string)
    ensures ParsePracticeTime(text) == Some(PracticeTimeShape(minutes))
  {
    RenderPracticeTime(PracticeTimeShape(minutes))
  }

  /** Reads a practice-time label back into its shape. */
  function ParsePracticeTime(s: string): Option<PracticeTime> {
    match ReadInt(s)
    case None => None
    case Some((v, rest)) => PracticeUnit(v, rest)
  }

  /** Reads the text after the leading number of a practice-time label. */
  function PracticeUnit(v: int, rest: string): Option<PracticeTime> {
    if rest == " phút" then Some(Minutes(v))
    else if v < 0 then None
    else if rest == " giờ" then Some(WholeHours(v))
    else if |rest| >= 2 && rest[..2] == "h " then
      match ReadNat(rest[2..])
      case Some((m, tail)) => if tail == "m" then Some(HoursMinutes(v, m)) else None
      case None => None
    else None
  }

  /** The label determines the minutes: reading it back gives a shape worth the minutes formatted. */
  lemma PracticeTimeRoundTrip(minutes: int)
    ensures var p := ParsePracticeTime(FormatPracticeTime(minutes));
      p.Some? && PracticeMinutes(p.value) == minutes
  {
    var shape := PracticeTimeShape(minutes);
    assert ParsePracticeTime(FormatPracticeTime(minutes)) == Some(shape);
  }

  lemma WholeHoursRoundTrip(h: nat)
    ensures ParsePracticeTime(NatToString(h) + " giờ") == Some(WholeHours(h))
  {
    ReadIntRendered(h, " giờ");
    assert IntToString(h) == NatToString(h);
  }

  lemma HoursMinutesRoundTrip(h: nat, r: nat)
    ensures ParsePracticeTime(NatToString(h) + HoursTailText(r)) == Some(HoursMinutes(h, r))
  {
    HoursTail(h, r);
    ReadIntRendered(h, HoursTailText(r));
  }

  /** The part after the hours reads back as the remaining minutes. */
  lemma HoursTail(h: nat, r: nat)
    ensures StopsNumeral(HoursTailText(r))
    ensures PracticeUnit(h, HoursTailText(r)) == Some(HoursMinutes(h, r))
  {
    var tail := HoursTailText(r);
    assert tail[0] == 'h';
    assert tail != " phút" && tail != " giờ";
    assert tail[..2] == "h ";
    assert tail[2..] == NatToString(r) + "m";
    ReadNatRendered(r, "m");
  }

  /**
   * A text reads back as a shape exactly when it is that shape's label, so
   * the label is fixed character for character: no padded or signed variant
   * of the numeral reads back as the same shape.
   */
  lemma PracticeLabelUnique(s: string, p: PracticeTime)
    ensures ParsePracticeTime(s) == Some(p) <==> s == RenderPracticeTime(p)
  {
    if ParsePracticeTime(s) == Some(p) {
      ParsedPracticeIsRendered(s);
    }
  }

  /** Whatever reads back as a practice time is that practice time's label. */
  lemma ParsedPracticeIsRendered(s: string)
    requires ParsePracticeTime(s).Some?
    ensures s == RenderPracticeTime(ParsePracticeTime(s).value)
  {
    ReadIntIsRendered(s);
    var (v, rest) := ReadInt(s).value;
    PracticeUnitIsRendered(v, rest);
  }

  lemma PracticeUnitIsRendered(v: int, rest: string)
    requires PracticeUnit(v, rest).Some?
    ensures IntToString(v) + rest == RenderPracticeTime(PracticeUnit(v, rest).value)
  {
    if rest != " phút" && rest != " giờ" {
      HoursUnitIsRendered(v, rest);
    }
  }

  lemma HoursUnitIsRendered(v: int, rest: string)
    requires rest != " phút" && rest != " giờ"
    requires PracticeUnit(v, rest).Some?
    ensures IntToString(v) + rest == RenderPracticeTime(PracticeUnit(v, rest).value)
  {
    ReadNatIsRendered(rest[2..]);
    var (m, tail) := ReadNat(rest[2..]).value;
    assert rest == "h " + rest[2..];
    assert rest == HoursTailText(m);
  }

  /** The practice-time label is the one text that reads back as the shape chosen for the minutes. */
  lemma PracticeTimeLabelExact(minutes: int, s: string)
    ensures ParsePracticeTime(s) == Some(PracticeTimeShape(minutes)) <==> s == FormatPracticeTime(minutes)
  {
    PracticeLabelUnique(s, PracticeTimeShape(minutes));
  }

  /** From an hour on, the label is "h giờ" exactly when the minutes are a whole number of hours. */
  lemma WholeHoursLabel(minutes: int)
    requires minutes >= 60
    ensures FormatPracticeTime(minutes) == NatToString(minutes / 60) + " giờ" <==> minutes % 60 == 0
  {
    var h := NatToString(minutes / 60);
    if minutes % 60 != 0 {
      var text := FormatPracticeTime(minutes);
      assert text[|h|] == 'h';
      assert (h + " giờ")[|h|] == ' ';
    }
  }

  // ---------------------------------------------------------------------------
  // Elapsed time

  /** The buckets of `formatTimeAgo`. */
  datatype Elapsed =
    | JustNow                 // "Vừa xong"
    | MinutesAgo(minutes: nat) // "m phút trước"
    | HoursAgo(hours: nat)     // "h giờ trước"
    | DaysAgo(days: nat)       // "d ngày trước"

  /** The bucket for a whole number of elapsed minutes; a future date counts as just now. */
  function ElapsedBucket(d: int): (e: Elapsed)
    ensures e.JustNow? <==> d < 1
    ensures e.MinutesAgo? <==> 1 <= d < 60
    ensures e.HoursAgo? <==> 60 <= d < 1440
    ensures e.DaysAgo? <==> 1440 <= d
    ensures e.MinutesAgo? ==> e.minutes == d
    ensures e.HoursAgo? ==> 1 <= e.hours < 24 && e.hours * 60 <= d < e.hours * 60 + 60
    ensures e.DaysAgo? ==> 1 <= e.days && e.days * 1440 <= d < e.days * 1440 + 1440
  {
    if d < 1 then JustNow
    else if d < 60 then MinutesAgo(d)
    else if d < 1440 then HoursAgo(d / 60)
    else DaysAgo(d / 1440)
  }

  /** Buckets in order of age, and the count within the bucket. */
  function BucketRank(e: Elapsed): nat {
    match e
    case JustNow => 0
    case MinutesAgo(_) => 1
    case HoursAgo(_) => 2
    case DaysAgo(_) => 3
  }

  function BucketCount(e: Elapsed): nat {
    match e
    case JustNow => 0
    case MinutesAgo(m) => m
    case HoursAgo(h) => h
    case DaysAgo(n) => n
  }

  /** An older date never gets a younger label: by bucket first, then by count. */
  lemma ElapsedBucketMonotone(d1: int, d2: int)
    requires d1 <= d2
    ensures var e1, e2 := ElapsedBucket(d1), ElapsedBucket(d2);
      BucketRank(e1) < BucketRank(e2) || (BucketRank(e1) == BucketRank(e2) && BucketCount(e1) <= BucketCount(e2))
  {
    var e1, e2 := ElapsedBucket(d1), ElapsedBucket(d2);
    if e1.HoursAgo? && e2.HoursAgo? {
      assert e1.hours * 60 < e2.hours * 60 + 60;
    } else if e1.DaysAgo? && e2.DaysAgo? {
      assert e1.days * 1440 < e2.days * 1440 + 1440;
    }
  }

  /** The label of a bucket; only the "just now" bucket has no number in front. */
  function RenderElapsed(e: Elapsed): (text: string)
    ensures text == "Vừa xong" <==> e.JustNow?
    ensures !e.JustNow? ==> |text| > 0 && IsDigit(text[0])
  {
    match e
    case JustNow => "Vừa xong"
    case MinutesAgo(m) => NatToString(m) + " phút trước"
    case HoursAgo(h) => NatToString(h) + " giờ trước"
    case DaysAgo(n) => NatToString(n) + " ngày trước"
  }

  /**
   * `formatTimeAgo`, once the elapsed time is a whole number of minutes.
   * The label reads back as its bucket and count.
   */
  function FormatTimeAgo(d: int): (text: string)
    ensures ParseTimeAgo(text) == Some(ElapsedBucket(d))
    ensures text == "Vừa xong" <==> d < 1
  {
    TimeAgoRoundTrip(ElapsedBucket(d));
    RenderElapsed(ElapsedBucket(d))
  }

  /** Reads an elapsed-time label back into its bucket. */
  function ParseTimeAgo(s: string): Option<Elapsed> {
    if s == "Vừa xong" then Some(JustNow)
    else
      match ReadNat(s)
      case None => None
      case Some((n, rest)) =>
        if rest == " phút trước" then Some(MinutesAgo(n))
        else if rest == " giờ trước" then Some(HoursAgo(n))
        else if rest == " ngày trước" then Some(DaysAgo(n))
        else None
  }

  /** The label determines the bucket and its count. */
  lemma TimeAgoRoundTrip(e: Elapsed)
    ensures ParseTimeAgo(RenderElapsed(e)) == Some(e)
  {
    match e
    case JustNow =>
    case MinutesAgo(m) =>
      ReadNatRendered(m, " phút trước");
    case HoursAgo(h) =>
      ReadNatRendered(h, " giờ trước");
    case DaysAgo(n) =>
      ReadNatRendered(n, " ngày trước");
  }

  /** A text reads back as a bucket exactly when it is that bucket's label. */
  lemma TimeAgoLabelUnique(s: string, e: Elapsed)
    ensures ParseTimeAgo(s) == Some(e) <==> s == RenderElapsed(e)
  {
    TimeAgoRoundTrip(e);
    if ParseTimeAgo(s) == Some(e) && s != "Vừa xong" {
      ReadNatIsRendered(s);
    }
  }

  /** The elapsed-time label is the one text that reads back as the bucket of the elapsed minutes. */
  lemma TimeAgoLabelExact(d: int, s: string)
    ensures ParseTimeAgo(s) == Some(ElapsedBucket(d)) <==> s == FormatTimeAgo(d)
  {
    TimeAgoLabelUnique(s, ElapsedBucket(d));
  }

  // ---------------------------------------------------------------------------
  // Lookup tables

  /** The icons the lookups hand out. */
  datatype Icon = Shield | Award | Crown | Gem | Zap | Target | BookOpen | Activity

  /** The badge and avatar tiers the tier tables know. */
  datatype Tier = Bronze | Silver | Gold | Platinum | Diamond

  function TierKey(t: Tier): string {
    match t
    case Bronze => "bronze"
    case Silver => "silver"
    case Gold => "gold"
    case Platinum => "platinum"
    case Diamond => "diamond"
  }

  /** The tier a key names, if any. */
  function ParseTier(key: string): (r: Option<Tier>)
    ensures r.Some? ==> TierKey(r.value) == key
    ensures r.None? <==> forall t :: TierKey(t) != key
  {
    if key == "bronze" then Some(Bronze)
    else if key == "silver" then Some(Silver)
    else if key == "gold" then Some(Gold)
    else if key == "platinum" then Some(Platinum)
    else if key == "diamond" then Some(Diamond)
    else None
  }

  /** Icon, text colour and background colour of a tier. */
  datatype TierStyle = TierStyle(icon: Icon, text: string, background: string)

  /** The three tier tables, one row per tier. */
  function StyleOf(t: Tier): TierStyle {
    match t
    case Bronze => TierStyle(Shield, "text-amber-600", "bg-amber-100")
    case Silver => TierStyle(Award, "text-gray-500", "bg-gray-100")
    case Gold => TierStyle(Crown, "text-yellow-500", "bg-yellow-100")
    case Platinum => TierStyle(Gem, "text-purple-500", "bg-purple-100")
    case Diamond => TierStyle(Zap, "text-cyan-400", "bg-cyan-100")
  }

  /** What `getTierIcon`, `getTierColor` and `getTierBgColor` answer for an unknown tier. */
  const FallbackStyle := TierStyle(Shield, "text-gray-500", "bg-gray-100")

  /** `getTierIcon`, `getTierColor` and `getTierBgColor` together; total on every string. */
  function StyleForTier(tier: string): (s: TierStyle)
    ensures forall t :: TierKey(t) == tier ==> s == StyleOf(t)
    ensures (forall t :: TierKey(t) != tier) ==> s == FallbackStyle
  {
    match ParseTier(tier)
    case Some(t) => StyleOf(t)
    case None => FallbackStyle
  }

  /**
   * Known tiers are told apart by every one of the three lookups. An unknown
   * tier takes bronze's icon and silver's colours, a combination no known
   * tier has.
   */
  lemma TierStylesDistinct(t1: Tier, t2: Tier, unknown: string)
    requires forall t :: TierKey(t) != unknown
    ensures t1 != t2 ==> StyleOf(t1).icon != StyleOf(t2).icon
    ensures t1 != t2 ==> StyleOf(t1).text != StyleOf(t2).text
    ensures t1 != t2 ==> StyleOf(t1).background != StyleOf(t2).background
    ensures StyleForTier(unknown).icon == StyleOf(Bronze).icon
    ensures StyleForTier(unknown).text == StyleOf(Silver).text
    ensures StyleForTier(unknown).background == StyleOf(Silver).background
    ensures StyleForTier(unknown) != StyleOf(t1)
  {
  }

  /** The exercise types the activity list knows. */
  datatype ExerciseKind = MultipleChoice | Flashcard | FillBlank

  function KindKey(k: ExerciseKind): string {
    match k
    case MultipleChoice => "multiple_choice"
    case Flashcard => "flashcard"
    case FillBlank => "fill_blank"
  }

  function ParseKind(key: string): (r: Option<ExerciseKind>)
    ensures r.Some? ==> KindKey(r.value) == key
    ensures r.None? <==> forall k :: KindKey(k) != key
  {
    if key == "multiple_choice" then Some(MultipleChoice)
    else if key == "flashcard" then Some(Flashcard)
    else if key == "fill_blank" then Some(FillBlank)
    else None
  }

  function KindIcon(k: ExerciseKind): Icon {
    match k
    case MultipleChoice => Target
    case Flashcard => BookOpen
    case FillBlank => Activity
  }

  function KindLabel(k: ExerciseKind): string {
    match k
    case MultipleChoice => "Multiple Choice"
    case Flashcard => "Flashcard"
    case FillBlank => "Fill in the Blank"
  }

  /** `getExerciseTypeIcon`: unknown types get the book icon. */
  function ExerciseTypeIcon(exerciseType: string): (i: Icon)
    ensures forall k :: KindKey(k) == exerciseType ==> i == KindIcon(k)
    ensures (forall k :: KindKey(k) != exerciseType) ==> i == BookOpen
  {
    match ParseKind(exerciseType)
    case Some(k) => KindIcon(k)
    case None => BookOpen
  }

  /** `getExerciseTypeLabel`: unknown types are shown as the type string itself. */
  function ExerciseTypeLabel(exerciseType: string): (name: string)
    ensures forall k :: KindKey(k) == exerciseType ==> name == KindLabel(k)
    ensures (forall k :: KindKey(k) != exerciseType) ==> name == exerciseType
  {
    match ParseKind(exerciseType)
    case Some(k) => KindLabel(k)
    case None => exerciseType
  }

  /**
   * The label equals the type string exactly for unknown types, since every
   * known label differs from its key; known types get distinct labels.
   */
  lemma ExerciseLabelIsKeyIffUnknown(exerciseType: string, k1: ExerciseKind, k2: ExerciseKind)
    ensures ExerciseTypeLabel(exerciseType) == exerciseType <==> ParseKind(exerciseType).None?
    ensures k1 != k2 ==> KindLabel(k1) != KindLabel(k2) && KindIcon(k1) != KindIcon(k2)
  {
    match ParseKind(exerciseType)
    case None =>
    case Some(k) =>
      assert KindLabel(k)[0] != KindKey(k)[0];
  }

  // ---------------------------------------------------------------------------
  // Badge preview

  /** How many earned badges the profile card shows before "+N". */
  const PreviewLimit: nat := 6

  /** The earned-badge card: a message when there are none, else a strip and an optional "+N" tile. */
  datatype BadgeStrip<T> = NoBadgesYet | Strip(shown: seq<T>, more: Option<nat>)

  /** The first six earned badges, plus a tile counting the rest when there are more than six. */
  function BadgePreview<T>(earned: seq<T>): (p: BadgeStrip<T>)
    ensures p.NoBadgesYet? <==> earned == []
    ensures p.Strip? ==> |p.shown| == if |earned| < PreviewLimit then |earned| else PreviewLimit
    ensures p.Strip? ==> p.shown == earned[..|p.shown|]
    ensures p.Strip? ==> (p.more.Some? <==> |earned| > PreviewLimit)
    ensures p.Strip? ==> |p.shown| + p.more.GetOr(0) == |earned|
  {
    if earned == [] then NoBadgesYet
    else if |earned| <= PreviewLimit then Strip(earned, None)
    else Strip(earned[..PreviewLimit], Some(|earned| - PreviewLimit))
  }
}

=== FILE: progression.dfy ===
/**
 * XP threshold gating on the profile screen: the XP figure the screen uses,
 * the split of the student-level catalog into earned and upcoming badges,
 * avatar unlocking and selection, and the "next avatar" hint.
 *
 * Catalog rows arrive from the record store already filtered to active rows
 * and ordered (levels by level number, avatars by unlock XP); the model takes
 * them as given sequences.
 */
module Progression {
  import opened Wrappers

  /** A row of the student-level catalog; each level carries one badge. */
  datatype Level = Level(
    id: string,
    levelNumber: int,
    xpRequired: int,
    badgeName: string,
    badgeIcon: string,
    badgeTier: string)

  /** A row of the avatar catalog. */
  datatype Avatar = Avatar(
    id: string,
    name: string,
    imageUrl: string,
    unlockXp: int,
    description: string,
    tier: string)

  /** The one threshold comparison shared by badges and avatars: reaching is inclusive. */
  predicate Reaches(xp: int, threshold: int) {
    xp >= threshold
  }

  // ---------------------------------------------------------------------------
  // Which XP figure is used

  /** JavaScript truthiness of a number that may be missing: `0` and `undefined` are falsy. */
  predicate Truthy(x: Option<int>) {
    x.Some? && x.value != 0
  }

  /** The total XP the statistics panel stores: the profile's XP when truthy, else 0. */
  function StatsTotalXp(profileXp: Option<int>): (r: int)
    ensures Truthy(profileXp) ==> r == profileXp.value
    ensures !Truthy(profileXp) ==> r == 0
  {
    if Truthy(profileXp) then profileXp.value else 0
  }

  /**
   * The XP the badge split uses: the statistics XP, else the profile's, else 0. A zero
   * falls through to the next option; the result is always a number.
   */
  function BadgeXp(statsTotalXp: int, profileXp: Option<int>): (r: int)
    ensures statsTotalXp != 0 ==> r == statsTotalXp
    ensures statsTotalXp == 0 ==> r == StatsTotalXp(profileXp)
    ensures r == 0 <==> statsTotalXp == 0 && !Truthy(profileXp)
  {
    if statsTotalXp != 0 then statsTotalXp else StatsTotalXp(profileXp)
  }

  /**
   * The statistics XP is either still the initial 0 or was computed from the
   * profile; in both cases the badge split sees the profile's XP.
   */
  lemma BadgeXpFollowsProfile(profileXp: Option<int>)
    ensures BadgeXp(0, profileXp) == StatsTotalXp(profileXp)
    ensures BadgeXp(StatsTotalXp(profileXp), profileXp) == StatsTotalXp(profileXp)
  {
  }

  // ---------------------------------------------------------------------------
  // Earned and upcoming badges

  /** The earned badges: catalog levels whose threshold the XP reaches, in catalog order. */
  function Earned(levels: seq<Level>, xp: int): (r: seq<Level>)
    ensures |r| <= |levels|
  {
    if levels == [] then []
    else (if Reaches(xp, levels[0].xpRequired) then [levels[0]] else []) + Earned(levels[1..], xp)
  }

  /** The upcoming badges: catalog levels whose threshold lies above the XP, in catalog order. */
  function Upcoming(levels: seq<Level>, xp: int): (r: seq<Level>)
    ensures |r| <= |levels|
  {
    if levels == [] then []
    else (if !Reaches(xp, levels[0].xpRequired) then [levels[0]] else []) + Upcoming(levels[1..], xp)
  }

  /** A level is earned exactly when the XP reaches its threshold, and upcoming exactly when it does not. */
  lemma {:induction false} BadgeMembership(levels: seq<Level>, xp: int)
    ensures forall l :: l in Earned(levels, xp) <==> l in levels && Reaches(xp, l.xpRequired)
    ensures forall l :: l in Upcoming(levels, xp) <==> l in levels && !Reaches(xp, l.xpRequired)
  {
    if levels != [] {
      BadgeMembership(levels[1..], xp);
      assert levels == [levels[0]] + levels[1..];
    }
  }

  /** `a` is `b` with some elements left out, the rest in the same order. */
  ghost predicate Subsequence<T>(a: seq<T>, b: seq<T>)
    decreases |b|
  {
    if b == [] then a == []
    else (a != [] && a[0] == b[0] && Subsequence(a[1..], b[1..])) || Subsequence(a, b[1..])
  }

  /**
   * The split is a partition of the catalog: every level lands in exactly one
   * of the two lists, with its multiplicity.
   */
  lemma {:induction false} BadgePartition(levels: seq<Level>, xp: int)
    ensures multiset(Earned(levels, xp)) + multiset(Upcoming(levels, xp)) == multiset(levels)
    ensures |Earned(levels, xp)| + |Upcoming(levels, xp)| == |levels|
    ensures forall l :: !(l in Earned(levels, xp) && l in Upcoming(levels, xp))
  {
    BadgeMembership(levels, xp);
    BadgeCounts(levels, xp);
    var e, u := Earned(levels, xp), Upcoming(levels, xp);
    assert |multiset(e) + multiset(u)| == |multiset(levels)|;
    assert |multiset(e)| == |e| && |multiset(u)| == |u|;
  }

  lemma {:induction false} BadgeCounts(levels: seq<Level>, xp: int)
    ensures multiset(Earned(levels, xp)) + multiset(Upcoming(levels, xp)) == multiset(levels)
  {
    if levels != [] {
      var x, rest := levels[0], levels[1..];
      BadgeCounts(rest, xp);
      assert levels == [x] + rest;
      if Reaches(xp, x.xpRequired) {
        assert Earned(levels, xp) == [x] + Earned(rest, xp);
        assert Upcoming(levels, xp) == Upcoming(rest, xp);
      } else {
        assert Earned(levels, xp) == Earned(rest, xp);
        assert Upcoming(levels, xp) == [x] + Upcoming(rest, xp);
      }
    }
  }

  /** Each half of the split keeps catalog order. */
  lemma {:induction false} BadgeSplitKeepsOrder(levels: seq<Level>, xp: int)
    ensures Subsequence(Earned(levels, xp), levels)
    ensures Subsequence(Upcoming(levels, xp), levels)
  {
    if levels != [] {
      BadgeSplitKeepsOrder(levels[1..], xp);
      var e, u := Earned(levels, xp), Upcoming(levels, xp);
      if Reaches(xp, levels[0].xpRequired) {
        assert e[0] == levels[0] && e[1..] == Earned(levels[1..], xp);
        assert u == Upcoming(levels[1..], xp);
      } else {
        assert u[0] == levels[0] && u[1..] == Upcoming(levels[1..], xp);
        assert e == Earned(levels[1..], xp);
      }
    }
  }

  /**
   * Thresholds do not decrease along the catalog. The query orders levels by
   * level number only; that the thresholds then rise too is an assumption
   * about the catalog's data, which no code enforces.
   */
  ghost predicate ThresholdsAscending(levels: seq<Level>) {
    forall i, j :: 0 <= i < j < |levels| ==> levels[i].xpRequired <= levels[j].xpRequired
  }

  lemma AscendingTail(levels: seq<Level>)
    requires levels != [] && ThresholdsAscending(levels)
    ensures ThresholdsAscending(levels[1..])
    ensures forall l :: l in levels[1..] ==> levels[0].xpRequired <= l.xpRequired
  {
    forall l | l in levels[1..] ensures levels[0].xpRequired <= l.xpRequired {
      var j :| 0 <= j < |levels[1..]| && levels[1..][j] == l;
      assert levels[j + 1] == l;
    }
  }

  /** Below a level's threshold nothing after it in an ascending catalog is earned. */
  lemma NothingEarnedAbove(levels: seq<Level>, xp: int, floor: int)
    requires forall l :: l in levels ==> floor <= l.xpRequired
    requires !Reaches(xp, floor)
    ensures Earned(levels, xp) == []
  {
    BadgeMembership(levels, xp);

  }

  /**
   * On a catalog with ascending thresholds the split is a cut: the earned
   * badges followed by the upcoming ones are the catalog itself.
   */
  lemma {:induction false} BadgeSplitIsCut(levels: seq<Level>, xp: int)
    requires ThresholdsAscending(levels)
    ensures Earned(levels, xp) + Upcoming(levels, xp) == levels
  {
    if levels != [] {
      AscendingTail(levels);
      BadgeSplitIsCut(levels[1..], xp);
      CutStep(levels, xp);
    }
  }

  /** One step of the cut: the head joins the earned side or starts the upcoming one. */
  lemma CutStep(levels: seq<Level>, xp: int)
    requires levels != []
    requires forall l :: l in levels[1..] ==> levels[0].xpRequired <= l.xpRequired
    requires Earned(levels[1..], xp) + Upcoming(levels[1..], xp) == levels[1..]
    ensures Earned(levels, xp) + Upcoming(levels, xp) == levels
  {
    if Reaches(xp, levels[0].xpRequired) {
      CutStepEarned(levels, xp);
    } else {
      NothingEarnedAbove(levels[1..], xp, levels[0].xpRequired);
      CutStepUpcoming(levels, xp);
    }
  }

  lemma CutStepEarned(levels: seq<Level>, xp: int)
    requires levels != [] && Reaches(xp, levels[0].xpRequired)
    requires Earned(levels[1..], xp) + Upcoming(levels[1..], xp) == levels[1..]
    ensures Earned(levels, xp) + Upcoming(levels, xp) == levels
  {
    var x, rest := levels[0], levels[1..];
    assert Earned(levels, xp) == [x] + Earned(rest, xp);
    assert Upcoming(levels, xp) == Upcoming(rest, xp);
    ConsAppend(x, Earned(rest, xp), Upcoming(rest, xp));
    assert levels == [x] + rest;
  }

  lemma ConsAppend<T>(x: T, a: seq<T>, b: seq<T>)
    ensures ([x] + a) + b == [x] + (a + b)
  {
  }

  lemma CutStepUpcoming(levels: seq<Level>, xp: int)
    requires levels != [] && !Reaches(xp, levels[0].xpRequired)
    requires Earned(levels[1..], xp) == []
    requires Upcoming(levels[1..], xp) == levels[1..]
    ensures Earned(levels, xp) + Upcoming(levels, xp) == levels
  {
    var x, rest := levels[0], levels[1..];
    assert Earned(levels, xp) == [];
    assert Upcoming(levels, xp) == [x] + rest;
    assert levels == [x] + rest;
  }

  /** Hence the earned badges are a prefix of such a catalog. */
  lemma EarnedIsPrefix(levels: seq<Level>, xp: int)
    requires ThresholdsAscending(levels)
    ensures Earned(levels, xp) == levels[..|Earned(levels, xp)|]
    ensures Upcoming(levels, xp) == levels[|Earned(levels, xp)|..]
  {
    BadgeSplitIsCut(levels, xp);
  }

  /** More XP never loses a badge and never earns fewer of them. */
  lemma {:induction false} EarnedMonotone(levels: seq<Level>, xp1: int, xp2: int)
    requires xp1 <= xp2
    ensures |Earned(levels, xp1)| <= |Earned(levels, xp2)|
    ensures forall l :: l in Earned(levels, xp1) ==> l in Earned(levels, xp2)
  {
    BadgeMembership(levels, xp1);
    BadgeMembership(levels, xp2);
    if levels != [] {
      EarnedMonotone(levels[1..], xp1, xp2);
    }
  }

  /**
   * The "XP needed" the badge modal shows under an upcoming badge: its
   * threshold minus the statistics XP.
   */
  function UpcomingXpNeeded(level: Level, statsTotalXp: int): (need: int)
    ensures statsTotalXp + need == level.xpRequired
    ensures need > 0 <==> !Reaches(statsTotalXp, level.xpRequired)
  {
    level.xpRequired - statsTotalXp
  }

  /**
   * Although the modal subtracts the statistics XP while the split used the
   * badge XP, every upcoming badge still shows a positive amount needed, as
   * long as neither XP figure is negative and the split and the modal read
   * the same statistics XP.
   */
  lemma UpcomingNeedIsPositive(levels: seq<Level>, statsTotalXp: int, profileXp: Option<int>, level: Level)
    requires statsTotalXp >= 0
    requires profileXp.Some? ==> profileXp.value >= 0
    requires level in Upcoming(levels, BadgeXp(statsTotalXp, profileXp))
    ensures UpcomingXpNeeded(level, statsTotalXp) > 0
  {
    BadgeMembership(levels, BadgeXp(statsTotalXp, profileXp));
  }

  /**
   * The split and the modal need not read the same statistics XP: both calls
   * of `processBadges` see the statistics of an earlier render. Statistics
   * still at 100 XP while the profile has reached 600 put a 500 XP level among
   * the upcoming badges, and the modal, subtracting the fresh 600, shows it
   * as -100 XP needed.
   */
  lemma StaleStatsNeedCanBeNegative()
    ensures var level := Level("l", 2, 500, "b", "i", "t");
      && BadgeXp(StatsTotalXp(Some(100)), Some(600)) == 100
      && level in Upcoming([level], BadgeXp(StatsTotalXp(Some(100)), Some(600)))
      && UpcomingXpNeeded(level, StatsTotalXp(Some(600))) == -100
  {
  }

  // ---------------------------------------------------------------------------
  // Avatars

  /** An avatar is unlocked once the statistics XP reaches its unlock XP. */
  function IsUnlocked(totalXp: int, avatar: Avatar): (unlocked: bool)
    ensures unlocked <==> avatar.unlockXp - totalXp <= 0
  {
    Reaches(totalXp, avatar.unlockXp)
  }

  /** The unlock boundary is inclusive: the unlock XP itself is the first XP that unlocks. */
  lemma UnlockBoundary(avatar: Avatar, totalXp: int)
    ensures IsUnlocked(totalXp, avatar) && !IsUnlocked(totalXp - 1, avatar) <==> totalXp == avatar.unlockXp
  {
  }

  /** The avatar part of the screen: the current avatar and whether the selector is open. */
  datatype AvatarView = AvatarView(selected: string, selectorOpen: bool)

  /** The view after a selection, and the avatar URL written to the user row, if any. */
  datatype Selection = Selection(view: AvatarView, written: Option<string>)

  /**
   * `handleAvatarSelect`: a locked avatar returns at once. An unlocked one is
   * written to the user row; only when that write succeeds does the view show
   * it and close the selector. `writeSucceeds` stands for the store's answer.
   */
  function SelectAvatar(view: AvatarView, totalXp: int, avatar: Avatar, writeSucceeds: bool): (s: Selection)
    ensures !IsUnlocked(totalXp, avatar) ==> s.view == view && s.written == None
    ensures IsUnlocked(totalXp, avatar) ==> s.written == Some(avatar.imageUrl)
    ensures s.view != view ==> IsUnlocked(totalXp, avatar) && writeSucceeds
    ensures IsUnlocked(totalXp, avatar) && writeSucceeds ==> s.view == AvatarView(avatar.imageUrl, false)
  {
    if !IsUnlocked(totalXp, avatar) then Selection(view, None)
    else if writeSucceeds then Selection(AvatarView(avatar.imageUrl, false), Some(avatar.imageUrl))
    else Selection(view, Some(avatar.imageUrl))
  }

  /** The avatar tile's click handler: it calls the selection handler only for an unlocked avatar. */
  function ClickAvatar(view: AvatarView, totalXp: int, avatar: Avatar, writeSucceeds: bool): (s: Selection)
    ensures s.written.Some? <==> IsUnlocked(totalXp, avatar)
    ensures IsUnlocked(totalXp, avatar) ==> s.written == Some(avatar.imageUrl)
    ensures IsUnlocked(totalXp, avatar) && writeSucceeds ==> s.view == AvatarView(avatar.imageUrl, false)
    ensures s.view != view ==> IsUnlocked(totalXp, avatar) && writeSucceeds
    ensures s.view != view ==> s.view == AvatarView(avatar.imageUrl, false)
  {
    if IsUnlocked(totalXp, avatar) then SelectAvatar(view, totalXp, avatar, writeSucceeds)
    else Selection(view, None)
  }

  /**
   * The tile's own check duplicates the one inside the handler, so clicking
   * behaves exactly like selecting, and a locked avatar is never chosen.
   */
  lemma ClickMatchesSelect(view: AvatarView, totalXp: int, avatar: Avatar, writeSucceeds: bool)
    ensures ClickAvatar(view, totalXp, avatar, writeSucceeds) == SelectAvatar(view, totalXp, avatar, writeSucceeds)
    ensures ClickAvatar(view, totalXp, avatar, writeSucceeds).view.selected != view.selected
      ==> IsUnlocked(totalXp, avatar)
  {
  }

  /** Index of the first avatar at or after `from` that is still locked. */
  function FirstLockedFrom(avatars: seq<Avatar>, totalXp: int, from: nat): (r: Option<nat>)
    requires from <= |avatars|
    ensures r.Some? ==> from <= r.value < |avatars| && !IsUnlocked(totalXp, avatars[r.value])
    ensures r.Some? ==> forall j :: from <= j < r.value ==> IsUnlocked(totalXp, avatars[j])
    ensures r.None? <==> forall j :: from <= j < |avatars| ==> IsUnlocked(totalXp, avatars[j])
    decreases |avatars| - from
  {
    if from == |avatars| then None
    else if !IsUnlocked(totalXp, avatars[from]) then Some(from)
    else FirstLockedFrom(avatars, totalXp, from + 1)
  }

  /** The next avatar hint: which avatar comes next, and how much XP is still missing. */
  datatype NextUnlock = NextUnlock(avatar: Avatar, xpNeeded: int)

  /**
   * The first avatar in catalog order still above the XP, with the XP it still
   * needs; none when every avatar is unlocked.
   */
  function NextAvatar(avatars: seq<Avatar>, totalXp: int): (r: Option<NextUnlock>)
    ensures r.None? <==> forall a :: a in avatars ==> IsUnlocked(totalXp, a)
    ensures r.Some? ==> exists i :: 0 <= i < |avatars| && avatars[i] == r.value.avatar &&
                                    forall j :: 0 <= j < i ==> IsUnlocked(totalXp, avatars[j])
    ensures r.Some? ==> !IsUnlocked(totalXp, r.value.avatar)
    ensures r.Some? ==> r.value.xpNeeded > 0 && r.value.xpNeeded == r.value.avatar.unlockXp - totalXp
  {
    match FirstLockedFrom(avatars, totalXp, 0)
    case None => None
    case Some(i) => Some(NextUnlock(avatars[i], avatars[i].unlockXp - totalXp))
  }

  ghost predicate UnlockAscending(avatars: seq<Avatar>) {
    forall i, j :: 0 <= i < j < |avatars| ==> avatars[i].unlockXp <= avatars[j].unlockXp
  }

  /**
   * With the catalog ordered by unlock XP, the next avatar has the smallest
   * threshold among the locked ones, so no locked avatar is cheaper to reach.
   */
  lemma NextAvatarIsCheapestLocked(avatars: seq<Avatar>, totalXp: int)
    requires UnlockAscending(avatars)
    ensures match NextAvatar(avatars, totalXp)
      case None => true
      case Some(n) => forall a :: a in avatars && !IsUnlocked(totalXp, a) ==> n.avatar.unlockXp <= a.unlockXp
  {
    match FirstLockedFrom(avatars, totalXp, 0)
    case None =>
    case Some(i) =>
      forall a | a in avatars && !IsUnlocked(totalXp, a)
        ensures avatars[i].unlockXp <= a.unlockXp
      {
        var j :| 0 <= j < |avatars| && avatars[j] == a;
        assert i <= j;
      }
  }

  /** The avatars offered when the avatar catalog cannot be read. */
  function FallbackAvatars(): (avatars: seq<Avatar>)
    ensures |avatars| == 5
    ensures UnlockAscending(avatars)
    ensures forall i, j :: 0 <= i < j < |avatars| ==> avatars[i].id != avatars[j].id
    ensures forall i :: 0 <= i < |avatars| ==> (IsUnlocked(0, avatars[i]) <==> i < 2)
  {
    [ Avatar("1", "Default", "👤", 0, "Default avatar", "default"),
      Avatar("2", "Smiley", "😊", 0, "Happy face", "default"),
      Avatar("3", "Rookie", "🌱", 500, "Rookie learner", "bronze"),
      Avatar("4", "Scholar", "🎓", 2000, "Academic scholar", "silver"),
      Avatar("5", "Expert", "⚡", 8000, "Expert level", "gold") ]
  }

  /**
   * The fallback list is ordered by unlock XP like the catalog query, and a
   * new user sees the two free avatars unlocked with Rookie next, 500 XP away.
   */
  lemma FallbackAvatarsForNewUser()
    ensures UnlockAscending(FallbackAvatars())
    ensures NextAvatar(FallbackAvatars(), 0) == Some(NextUnlock(FallbackAvatars()[2], 500))
    ensures IsUnlocked(499, FallbackAvatars()[2]) == false && IsUnlocked(500, FallbackAvatars()[2])
  {
  }
}

=== FILE: wrappers.dfy ===
/** Optional values: JavaScript's `null` / `undefined` made explicit. */
module Wrappers {

  datatype Option<+T> = None | Some(value: T) {

    /** The value, or `default` when there is none. */
    function GetOr(default: T): T {
      match this
      case Some(v) => v
      case None => default
    }
  }
}
